=== FILE: README.md ===
# Pinnacle tennis auto-betting Lambda, modelled in Dafny

The repository is an AWS Lambda that places tennis money-line bets on the
Pinnacle sportsbook. A request names a match (`home`, `away`), the side to
back (`team`) and a `stake`. `PinnacleClient` finds the event in the fixture
catalogue by fuzzy name matching, fetches the live line, places the bet and
returns the sportsbook's answer. The handler validates the request and maps
the outcome to an HTTP status.

This project models the deterministic core of that flow as pure functions
over immutable datatypes:

- `values.dfy` (`Values`): the strings, integers and nulls the code handles (`Str`, `Int`, `Null`), `Option`,
  Python truthiness and `dict.get`.
- `string_order.dfy` (`StringOrder`): Python's `<=` on `str` (code-point
  lexicographic order), proved a total order.
- `sorting.dfy` (`Sorting`): sorting a token list. Any sorted permutation of
  a list is unique, which is why an insertion sort gives what Python's
  Timsort gives.
- `text.dfy` (`Text`): `str.lower()`, `replace('-', ' ')`, `split()` with no
  separator, and substring search `needle in hay`.
- `names.dfy` (`Names`): `is_same_name`. The main theorem is that
  sort-then-compare is exactly equality of the token multisets.
- `client.dfy` (`Client`): `search_event`, `check_dup` and the decision
  skeleton of `execute`. The sportsbook's `get_line` and `place_bet` are
  functions passed in as part of a `Sportsbook` value. `Execute` returns the
  caught-or-returned result together with the list of sportsbook calls it
  made.
- `handler.dfy` (`Handler`): `handler`'s required-key check and its
  400/500/200 mapping over an abstract `execute` outcome. It also composes
  the handler with `Client.Execute`.

Three behaviours of the code are easy to misread, and the model follows the
code in each:

- The token *lists* are sorted and compared, not token sets, so repeated
  tokens count (`RepeatCountExample`).
- `execute` catches every exception and *returns* it. The handler therefore
  answers 200, not 500, for "League Not Found" and for insufficient funds.
- `if not league_id` rejects a league id of 0 as well as `None`
  (`LeagueIdZeroIsNotFound`).

## Model

| member | source | states |
|---|---|---|
| StringOrder.LessEq | pinnacle_client.py:57-59 | the order `list.sort()` puts tokens in: Python's `<=` on `str`, comparing code points from the left, a proper prefix first; its order laws are the four rows below |
| StringOrder.Reflexive | pinnacle_client.py:57-59 | every string is `<=` itself, so a token list with repeated tokens counts as sorted |
| StringOrder.AntiSymmetric | pinnacle_client.py:57-59 | two strings each `<=` the other are equal, so the order `list.sort()` uses on tokens is antisymmetric |
| StringOrder.Transitive | pinnacle_client.py:57-59 | Python's string `<=` is transitive |
| StringOrder.Total | pinnacle_client.py:57-59 | any two strings are comparable one way or the other |
| Sorting.Sort | pinnacle_client.py:57 | `name_parts.sort()` on a token list; that its result is an ordered permutation, and the only one, is stated by `Sorting.SortCorrect` and `Sorting.SortedUnique` |
| Sorting.InsertCorrect | pinnacle_client.py:57-59 | inserting into a sorted token list keeps it sorted and adds exactly that token to its multiset |
| Sorting.SortCorrect | pinnacle_client.py:57-59 | the sorted token list is ordered and is a permutation of the input |
| Sorting.SortedUnique | pinnacle_client.py:57-59 | two sorted lists with the same multiset of tokens are equal, so the result of sorting does not depend on the algorithm |
| Sorting.SortEqIffSameMultiset | pinnacle_client.py:56-61 | sorting two lists gives equal results if and only if they hold the same multiset |
| Text.Lower | pinnacle_client.py:56 | `str.lower()`: each ASCII capital becomes its small letter, nothing else changes; its effect on matching is stated by `Names.CaseAndHyphenInsensitive` |
| Text.ReplaceHyphens | pinnacle_client.py:56 | `replace('-', ' ')`: each hyphen becomes a space, nothing else changes; its effect on matching is stated by `Names.CaseAndHyphenInsensitive` |
| Text.Split | pinnacle_client.py:56 | `split()` with no separator; `Text.SplitYieldsWords`, `Text.SplitAtSpace` and `Text.SplitJoin` state what it yields |
| Text.SplitYieldsWords | pinnacle_client.py:56 | every token `split()` yields is non-empty and free of whitespace |
| Text.SplitAtSpace | pinnacle_client.py:56 | a whitespace character splits the string into independently split halves |
| Text.SplitJoin | pinnacle_client.py:56 | splitting words joined by single spaces gives back exactly those words |
| Text.Contains | pinnacle_client.py:45 | `needle in hay`; `Text.ContainsAt` proves it equivalent to an occurrence at some offset |
| Text.ContainsAt | pinnacle_client.py:45 | `needle in hay` holds exactly when the needle occurs at some offset of `hay` |
| Text.ContainsInConcat | pinnacle_client.py:48 | an occurrence inside either part is an occurrence in the concatenation |
| Names.IsSameName | pinnacle_client.py:54-65 | a value that is not a string (such as `None`) never matches anything; the failure is a `False` answer, not an error |
| Names.SameNameIffSameTokens | pinnacle_client.py:54-61 | two names match if and only if both are strings whose normalised token multisets are equal |
| Names.SameNameEquivalence | pinnacle_client.py:54-65 | on strings the matcher is reflexive, symmetric and transitive; a non-string matches nothing, not even itself |
| Names.CaseAndHyphenInsensitive | pinnacle_client.py:56-58 | names that agree character by character up to ASCII case and hyphen-versus-space always match |
| Names.WordOrderIrrelevant | pinnacle_client.py:56-61 | `a b` matches `b a` for any strings `a` and `b` |
| Names.SameWordsIff | pinnacle_client.py:56-61 | for names made of lower-case, hyphen-free words, matching holds exactly when each word appears the same number of times |
| Names.DanielTaroExample | pinnacle_client.py:164 | "daniel-taro" matches "Taro Daniel" |
| Names.HongSeongChanExample | pinnacle_client.py:165 | "hong-seong-chan" matches "hong seong chan" |
| Names.DifferentWordsExample | pinnacle_client.py:54-61 | "Foo Bar" does not match "Foo Baz" |
| Names.RepeatCountExample | pinnacle_client.py:56-61 | "lee lee kim" does not match "lee kim kim": same token set, different repeat counts |
| Values.Truthy | pinnacle_client.py:94-98 | Python truthiness: a value is truthy exactly when it is not `None`, `0` or `""` |
| Client.LeagueFalsy | pinnacle_client.py:93-94 | `not league_id` on the search result holds exactly for a miss and for a hit whose league id is 0 |
| Client.IsInsufficientFunds | pinnacle_client.py:98-99 | the two nested tests `errorCode` truthy and equal to "INSUFFICIENT_FUNDS" hold together exactly when the payload's `errorCode` is that string |
| Client.ScanEvents | pinnacle_client.py:47-51 | the inner loop returns the first event at or after `j` that is not a sub-market and matches both names, or nothing when none does |
| Client.FirstHit | pinnacle_client.py:44-52 | the outer loop returns the first qualifying (league, event) position in league-then-event order, or nothing when none qualifies |
| Client.SearchEvent | pinnacle_client.py:43-52 | the result is `(None, None)` if and only if no event qualifies; otherwise it is the ids of the first qualifying event |
| Client.FirstQualifyingUnique | pinnacle_client.py:44-52 | there is at most one first qualifying position |
| Client.SearchFindsFirst | pinnacle_client.py:44-52 | whenever a first qualifying event exists, the search returns exactly its league and event ids |
| Client.IgnoredLeagueInvisible | pinnacle_client.py:44-46 | removing a league whose name contains "ITF" or "Doubles" from anywhere in the catalogue never changes the result, even when one of its events matches both names |
| Client.MarkerInEitherNameExcludes | pinnacle_client.py:48-49 | an event whose home or away name contains a sub-market marker is never accepted |
| Client.StraddlingMarkerExample | pinnacle_client.py:48-49 | the marker test runs on `home + away`: "Ana Kof" / " Setter" is excluded although neither name contains "of Set" |
| Client.CheckDup | pinnacle_client.py:37-41 | the answer is true if and only if some open bet's team1 and team2 match home and away respectively |
| Client.CheckDupRespectsSameName | pinnacle_client.py:37-41 | the duplicate check gives the same answer for any respelling that matches the queried names |
| Client.Execute | pinnacle_client.py:89-108 | "League Not Found", always naming the queried home and away, is returned exactly when the search misses or finds league id 0, with no sportsbook call; otherwise the calls are the line lookup for the event found and then a placement on that line's `lineId`, for the same event, team and stake; a placed bet is the placement's own payload without the insufficient-funds code; insufficient funds comes only from a placement payload with that code; a missing `lineId` stops after the lookup; an upstream error carries the text of the call that failed |
| Client.ExecuteUsesFirstMatch | pinnacle_client.py:93-96 | whenever the sportsbook is called, the line lookup is for the first qualifying event of the catalogue, in a league with a non-zero id |
| Client.LeagueIdZeroIsNotFound | pinnacle_client.py:93-95 | a match found in a league with id 0 is reported as "League Not Found" and nothing is asked of the sportsbook |
| Client.InsufficientFundsFails | pinnacle_client.py:96-100 | a placement answered with error code "INSUFFICIENT_FUNDS" on the looked-up line is returned as the insufficient-funds failure, never as a placed bet |
| Client.LineLookupErrorReturned | pinnacle_client.py:96-108 | when the line lookup raises, `execute` returns that exception's text after exactly that one call, and places no bet |
| Client.MissingLineIdReturned | pinnacle_client.py:96-108 | when the looked-up line has no `lineId`, `execute` returns the `KeyError` for "lineId" after exactly the one lookup, and places no bet |
| Client.DuplicateCheckDisabled | pinnacle_client.py:90-92 | `execute` does not consult the open-bet snapshot: replacing it never changes the calls made or the value returned |
| Client.OtherErrorCodesPassThrough | pinnacle_client.py:97-103 | a placement payload whose error code is anything but "INSUFFICIENT_FUNDS" is returned unchanged as the placed bet |
| Handler.RequestOf | lambda_function.py:7-13 | each of the six request fields holds the body's value under the key read in the same position |
| Handler.FirstMissing | lambda_function.py:7-13 | finds the first absent key of the fixed order username, password, home, away, team, stake, or reports that all are present |
| Handler.Handle | lambda_function.py:4-33 | status 400 exactly when a required key is absent, naming the first absent one and running nothing; otherwise the client runs with the six values, and status is 500 with the exception text if it raised, 200 with the raw returned value if not |
| Handler.MissingStakeExample | lambda_function.py:13-18 | a body lacking only `stake` gets 400 with "Missing required parameter: stake" |
| Handler.ExtraKeysIgnored | lambda_function.py:7-13 | bodies that agree on the six required keys get identical answers, whatever other keys they carry |
| Handler.RunClient | lambda_function.py:20-23 | wired to the client model, calling `execute` never raises, whatever the request and catalogue |
| Handler.DomainFailuresAre200 | lambda_function.py:22-33 | wired to the client model, the handler never answers 500; a complete request always gets 200 with `execute`'s returned value |
| Handler.LeagueNotFoundIs200 | lambda_function.py:30-33 | a request for a match the catalogue lacks gets 200 with the "League Not Found" failure as its body |

## Left out

- The sportsbook client library (`pinnacle.APIClient`): login, `get_fixtures`, `get_bets`, `get_line` and `place_bet` are network calls. The fixture snapshot is a given list of leagues, and the two live calls are functions of their arguments that answer with a JSON object or an exception.
- Slack notifications, `traceback.format_exc()` and `print`: output to the console and to Slack. The model assumes `notify` never raises. Where it could, the source differs from the model in three places:
  - a failing `notify` after a successful placement (pinnacle_client.py:101-102) is caught, and the exception is returned in place of the placed bet;
  - a failing `notify` in `is_same_name`'s handler (pinnacle_client.py:63-64) makes `is_same_name` raise instead of answering `False`, so the search itself raises;
  - a failing `notify` in `execute`'s handler (pinnacle_client.py:105-107) escapes `execute`, and that is how `handler` could answer 500. The model's `execute` therefore never raises.
- The date constants `TODAY`, `TOMORROW`, `YESTERDAY`, `LAST_WEEK` and `LAST_MONTH`: wall-clock time that only parameterises `get_bets`.
- `get_bets`, `load_matches` and `__init__`: fetching the fixture and open-bet snapshots is I/O. Construction (lambda_function.py:20) is outside the handler's `try`, so an exception there escapes the handler with no response at all. The model assumes construction does not raise: the handler's `execute` outcome is that of the `execute` call alone.
- `calc_roi`: console reporting of floating-point sums of `winLoss` over settled bets filtered on a stake of 500.
- `show_current_open_bets`: prints the unsettled open bets and their count, after sorting `current_open_bets` in place by `teamName`. The reordering changes nothing the model uses: `CheckDup` is an existential over the bets, and `execute` does not call it.
- `json.loads` / `json.dumps`: the request body is taken as already parsed into a map from keys to strings, integers or null (a boolean or floating-point `stake` such as `12.5` is not modelled), and response bodies are kept as values rather than serialised text. A body that parses to something other than an object is not modelled.
- Text.Lower: models `str.lower()` on ASCII letters only; other Unicode case mappings are not modelled. `split()` uses the full set of characters Python's `str.isspace()` accepts.
- Names.IsSameName: the `False` answer for a non-string name assumes the Slack `notify` in the handler at pinnacle_client.py:63-64 does not raise.
- Client.Execute: the fixture and payload shapes are assumed well typed (event names are strings, ids are integers). The exceptions a malformed catalogue would raise inside `search_event` are not modelled. A missing `lineId` is modelled as a returned `KeyError` failure.
- Client.CheckDup: the duplicate check is modelled as written, but `execute` does not call it because the call is commented out at pinnacle_client.py:91-92. A `None` open-bet list, left by a failed fetch, would raise there and is not modelled.

=== FILE: client.dfy ===
/** `PinnacleClient`: the event search over the fixture catalogue, the
    duplicate-bet check over open bets, and the decision skeleton of
    `execute`. The sportsbook's own calls are given as functions, so the
    model states which calls `execute` makes and with what arguments. */
module Client {
  import opened Values
  import opened Text
  import opened Names

  /** League names containing one of these are never searched. */
  const IgnoreWords: seq<string> := ["ITF", "Doubles"]

  /** Markers of non-match-winner markets, looked for in `home + away`. */
  const SubMarketMarkers: seq<string> := ["(Games)", "of Set", "+1.5 Sets", "(Sets)"]

  /** The only error code `execute` turns into a failure. */
  const InsufficientFundsCode: string := "INSUFFICIENT_FUNDS"

  datatype Event = Event(id: int, home: string, away: string)

  datatype League = League(id: int, name: string, events: seq<Event>)

  /** An open bet, reduced to the two fields the duplicate check reads. */
  datatype OpenBet = OpenBet(team1: string, team2: string)

  /** What `search_event` returns: `(league_id, event_id)` or `(None, None)`. */
  datatype Search = Miss | Hit(leagueId: int, eventId: int)

  /** `any(word in text for word in words)`. */
  predicate ContainsAny(text: string, words: seq<string>)
  {
    exists k :: 0 <= k < |words| && Contains(text, words[k])
  }

  predicate IgnoredLeague(l: League)
  {
    ContainsAny(l.name, IgnoreWords)
  }

  /** The marker test runs on the two names glued together with no
      separator, so a marker may start in one name and end in the other. */
  predicate SubMarket(e: Event)
  {
    ContainsAny(e.home + e.away, SubMarketMarkers)
  }

  /** An event the inner loop of `search_event` accepts. */
  predicate EventHit(e: Event, home: Value, away: Value)
  {
    !SubMarket(e) && IsSameName(home, Str(e.home)) && IsSameName(away, Str(e.away))
  }

  /** Event `j` of league `i` is one `search_event` would return if it got
      that far. */
  ghost predicate Qualifies(ls: seq<League>, i: int, j: int, home: Value, away: Value)
  {
    && 0 <= i < |ls|
    && 0 <= j < |ls[i].events|
    && !IgnoredLeague(ls[i])
    && EventHit(ls[i].events[j], home, away)
  }

  /** Position `(i', j')` comes before `(i, j)` in league-then-event order. */
  ghost predicate Precedes(i': int, j': int, i: int, j: int)
  {
    i' < i || (i' == i && j' < j)
  }

  /** `(i, j)` is the first qualifying position of the whole catalogue. */
  ghost predicate FirstQualifying(ls: seq<League>, i: int, j: int, home: Value, away: Value)
  {
    && Qualifies(ls, i, j, home, away)
    && forall i', j' :: Precedes(i', j', i, j) ==> !Qualifies(ls, i', j', home, away)
  }

  /** The inner loop of `search_event`: the first accepted event at or
      after index `j`. */
  function ScanEvents(es: seq<Event>, home: Value, away: Value, j: nat): (r: Option<nat>)
    requires j <= |es|
    ensures r.Some? ==> j <= r.value < |es| && EventHit(es[r.value], home, away)
    ensures r.Some? ==> forall j' :: j <= j' < r.value ==> !EventHit(es[j'], home, away)
    ensures r.None? ==> forall j' :: j <= j' < |es| ==> !EventHit(es[j'], home, away)
    decreases |es| - j
  {
    if j == |es| then None
    else if EventHit(es[j], home, away) then Some(j)
    else
      var r := ScanEvents(es, home, away, j + 1);
      assert !EventHit(es[j], home, away);
      r
  }

  /** The outer loop of `search_event`: the first qualifying position in
      leagues `i` onwards. */
  function FirstHit(ls: seq<League>, home: Value, away: Value, i: nat): (r: Option<(nat, nat)>)
    requires i <= |ls|
    ensures r.Some? ==> i <= r.value.0 && Qualifies(ls, r.value.0, r.value.1, home, away)
    ensures r.Some? ==> forall i', j' :: i <= i' && Precedes(i', j', r.value.0, r.value.1) ==>
                          !Qualifies(ls, i', j', home, away)
    ensures r.None? ==> forall i', j' :: i <= i' ==> !Qualifies(ls, i', j', home, away)
    decreases |ls| - i
  {
    if i == |ls| then None
    else if IgnoredLeague(ls[i]) then FirstHit(ls, home, away, i + 1)
    else match ScanEvents(ls[i].events, home, away, 0)
      case Some(j) => Some((i, j))
      case None => FirstHit(ls, home, away, i + 1)
  }

  /** `search_event(home, away)`: the ids of the first event, in
      league-then-event order, that is outside the ignored leagues, is not
      a sub-market, and whose home and away names both match; `Miss`
      exactly when there is none. */
  function SearchEvent(ls: seq<League>, home: Value, away: Value): (r: Search)
    ensures r.Miss? <==> forall i, j :: !Qualifies(ls, i, j, home, away)
    ensures r.Hit? ==> exists i, j :: FirstQualifying(ls, i, j, home, away)
                                   && r == Hit(ls[i].id, ls[i].events[j].id)
  {
    match FirstHit(ls, home, away, 0)
    case None => Miss
    case Some((i, j)) =>
      assert FirstQualifying(ls, i, j, home, away);
      Hit(ls[i].id, ls[i].events[j].id)
  }

  /** There is at most one first qualifying position. */
  lemma FirstQualifyingUnique(ls: seq<League>, home: Value, away: Value, i: int, j: int, i': int, j': int)
    requires FirstQualifying(ls, i, j, home, away)
    requires FirstQualifying(ls, i', j', home, away)
    ensures i == i' && j == j'
  {
    assert !Precedes(i, j, i', j') && !Precedes(i', j', i, j);
  }

  /** The search result is determined by the first qualifying position: it
      returns that event's ids, whatever comes after it. */
  lemma SearchFindsFirst(ls: seq<League>, home: Value, away: Value, i: int, j: int)
    requires FirstQualifying(ls, i, j, home, away)
    ensures SearchEvent(ls, home, away) == Hit(ls[i].id, ls[i].events[j].id)
  {
    var r := SearchEvent(ls, home, away);
    assert !r.Miss?;
    var i', j' :| FirstQualifying(ls, i', j', home, away) && r == Hit(ls[i'].id, ls[i'].events[j'].id);
    FirstQualifyingUnique(ls, home, away, i, j, i', j');
  }

  /** An ignored league ("ITF", "Doubles") is invisible to the search:
      removing one from anywhere in the catalogue changes nothing, even
      when one of its events matches both names. */
  lemma IgnoredLeagueInvisible(before: seq<League>, l: League, after: seq<League>, home: Value, away: Value)
    requires Contains(l.name, "ITF") || Contains(l.name, "Doubles")
    ensures SearchEvent(before + [l] + after, home, away) == SearchEvent(before + after, home, away)
  {
    IgnoreWordsIgnored(l);
    var ls := before + after;
    var r := SearchEvent(ls, home, away);
    if r.Miss? {
      MissAroundIgnored(before, l, after, home, away);
    } else {
      var i, j := HitPosition(ls, home, away);
      var i2 := if i < |before| then i else i + 1;
      FirstAroundIgnored(before, l, after, home, away, i, j);
      assert (before + [l] + after)[i2] == ls[i];
      SearchFindsFirst(before + [l] + after, home, away, i2, j);
    }
  }

  /** The position a hit comes from. */
  lemma HitPosition(ls: seq<League>, home: Value, away: Value) returns (i: int, j: int)
    requires SearchEvent(ls, home, away).Hit?
    ensures FirstQualifying(ls, i, j, home, away)
    ensures SearchEvent(ls, home, away) == Hit(ls[i].id, ls[i].events[j].id)
  {
    i, j :| FirstQualifying(ls, i, j, home, away) && SearchEvent(ls, home, away) == Hit(ls[i].id, ls[i].events[j].id);
  }

  /** Position `i` of the catalogue with `l` inserted after `before`
      corresponds to position `i` or `i - 1` of the catalogue without it. */
  lemma QualifiesAroundIgnored(before: seq<League>, l: League, after: seq<League>, i: int, j: int, home: Value, away: Value)
    requires IgnoredLeague(l)
    ensures Qualifies(before + [l] + after, i, j, home, away) ==
              if i < |before| then Qualifies(before + after, i, j, home, away)
              else if i == |before| then false
              else Qualifies(before + after, i - 1, j, home, away)
  {
    var all, ls := before + [l] + after, before + after;
    if 0 <= i < |before| {
      assert all[i] == ls[i];
    } else if |before| < i < |all| {
      assert all[i] == ls[i - 1];
    }
  }

  lemma MissAroundIgnored(before: seq<League>, l: League, after: seq<League>, home: Value, away: Value)
    requires IgnoredLeague(l)
    requires forall i, j :: !Qualifies(before + after, i, j, home, away)
    ensures forall i, j :: !Qualifies(before + [l] + after, i, j, home, away)
  {
    forall i, j ensures !Qualifies(before + [l] + after, i, j, home, away) {
      QualifiesAroundIgnored(before, l, after, i, j, home, away);
    }
  }

  lemma FirstAroundIgnored(before: seq<League>, l: League, after: seq<League>, home: Value, away: Value, i: int, j: int)
    requires IgnoredLeague(l)
    requires FirstQualifying(before + after, i, j, home, away)
    ensures FirstQualifying(before + [l] + after, if i < |before| then i else i + 1, j, home, away)
  {
    var i2 := if i < |before| then i else i + 1;
    QualifiesAroundIgnored(before, l, after, i2, j, home, away);
    forall i', j' | Precedes(i', j', i2, j)
      ensures !Qualifies(before + [l] + after, i', j', home, away)
    {
      QualifiesAroundIgnored(before, l, after, i', j', home, away);
      assert i' < |before| ==> Precedes(i', j', i, j);
      assert i' > |before| ==> Precedes(i' - 1, j', i, j);
    }
  }

  lemma IgnoreWordsIgnored(l: League)
    requires Contains(l.name, "ITF") || Contains(l.name, "Doubles")
    ensures IgnoredLeague(l)
  {
    if Contains(l.name, "ITF") {
      assert Contains(l.name, IgnoreWords[0]);
    } else {
      assert Contains(l.name, IgnoreWords[1]);
    }
  }

  /** A marker inside either name excludes the event. */
  lemma MarkerInEitherNameExcludes(e: Event, k: nat)
    requires k < |SubMarketMarkers|
    requires Contains(e.home, SubMarketMarkers[k]) || Contains(e.away, SubMarketMarkers[k])
    ensures SubMarket(e)
    ensures forall home, away :: !EventHit(e, home, away)
  {
    ContainsInConcat(e.home, e.away, SubMarketMarkers[k]);
  }

  /** The marker test looks at `home + away` with no separator: here
      neither name contains "of Set", yet the event is excluded. */
  lemma StraddlingMarkerExample()
    ensures !Contains("Ana Kof", "of Set") && !Contains(" Setter", "of Set")
    ensures SubMarket(Event(1, "Ana Kof", " Setter"))
  {
    NoOccurrence("Ana Kof", "of Set");
    NoOccurrence(" Setter", "of Set");
    StraddleOccurrence();
    assert Contains("Ana Kof" + " Setter", SubMarketMarkers[1]);
  }

  lemma StraddleOccurrence()
    ensures Contains("Ana Kof" + " Setter", "of Set")
  {
    assert IsPrefix("of Set", ("Ana Kof" + " Setter")[5..]);
    ContainsAt("Ana Kof" + " Setter", "of Set");
  }

  /** A needle whose first character occurs at no feasible offset does
      not occur. */
  lemma NoOccurrence(hay: string, needle: string)
    requires |needle| > 0
    requires forall i :: 0 <= i && i + |needle| <= |hay| ==> hay[i] != needle[0]
    ensures !Contains(hay, needle)
  {
    ContainsAt(hay, needle);
    forall i | 0 <= i <= |hay|
      ensures !IsPrefix(needle, hay[i..])
    {
      if i + |needle| <= |hay| {
        assert hay[i..][..|needle|][0] == hay[i];
      }
    }
  }

  /** `IsDupOf(b, home, away)`: the open bet's first and second teams match
      `home` and `away` respectively. */
  predicate IsDupOf(b: OpenBet, home: Value, away: Value)
  {
    IsSameName(home, Str(b.team1)) && IsSameName(away, Str(b.team2))
  }

  /** `check_dup(home, away)`: some open bet names the same pairing, in
      the same home/away orientation. */
  function CheckDup(bets: seq<OpenBet>, home: Value, away: Value): (r: bool)
    ensures r <==> exists k :: 0 <= k < |bets| && IsDupOf(bets[k], home, away)
    decreases |bets|
  {
    if |bets| == 0 then false
    else if IsDupOf(bets[0], home, away) then true
    else
      var r := CheckDup(bets[1..], home, away);
      assert forall k :: 1 <= k < |bets| ==> bets[k] == bets[1..][k - 1];
      r
  }

  /** The duplicate check depends only on the names' token multisets: a
      respelling that matches gives the same answer. */
  lemma CheckDupRespectsSameName(bets: seq<OpenBet>, home: Value, away: Value, home': Value, away': Value)
    requires IsSameName(home, home') && IsSameName(away, away')
    ensures CheckDup(bets, home, away) == CheckDup(bets, home', away')
  {
    forall k | 0 <= k < |bets|
      ensures IsDupOf(bets[k], home, away) == IsDupOf(bets[k], home', away')
    {
      SameNameIffSameTokens(home, home');
      SameNameIffSameTokens(away, away');
      SameNameIffSameTokens(home, Str(bets[k].team1));
      SameNameIffSameTokens(home', Str(bets[k].team1));
      SameNameIffSameTokens(away, Str(bets[k].team2));
      SameNameIffSameTokens(away', Str(bets[k].team2));
    }
  }

  /** What a sportsbook call gives back: a JSON object, or an exception. */
  datatype ApiReply = Answer(payload: map<string, Value>) | ApiError(message: string)

  /** A call `execute` makes on the sportsbook. */
  datatype ApiCall =
    | GetLine(leagueId: int, eventId: int, team: Value)
    | PlaceBet(lineId: Value, eventId: int, team: Value, stake: Value)

  /** A logged-in client: the fixture and open-bet snapshots taken at
      construction and the two live calls, as functions of their
      arguments. */
  datatype Sportsbook = Sportsbook(
    fixtures: seq<League>,
    openBets: seq<OpenBet>,
    getLine: (int, int, Value) -> ApiReply,
    placeBet: (Value, int, Value, Value) -> ApiReply)

  /** The exceptions `execute` catches and returns. */
  datatype Failure =
    | LeagueNotFound(home: Value, away: Value)
    | InsufficientFunds
    | MissingKey(key: string)
    | Upstream(message: string)

  /** What `execute` returns: the placement payload, or the caught exception. */
  datatype ExecResult = Placed(bet: map<string, Value>) | Failed(failure: Failure)

  /** The returned value together with the sportsbook calls made. */
  datatype Execution = Execution(result: ExecResult, calls: seq<ApiCall>)

  /** The `league_id` that `search_event` hands back: `None` on a miss. */
  function LeagueIdOf(s: Search): Value
  {
    if s.Miss? then Null else Int(s.leagueId)
  }

  /** `if not league_id`: the test rejects a miss and also a hit whose
      league id is 0. */
  function LeagueFalsy(s: Search): (r: bool)
    ensures r <==> s.Miss? || s.leagueId == 0
  {
    !Truthy(LeagueIdOf(s))
  }

  /** The error-code test after placement: only a truthy `errorCode`
      equal to "INSUFFICIENT_FUNDS" is a failure. */
  function IsInsufficientFunds(bet: map<string, Value>): (r: bool)
    ensures r <==> "errorCode" in bet && bet["errorCode"] == Str(InsufficientFundsCode)
  {
    var code := Get(bet, "errorCode");
    Truthy(code) && code == Str(InsufficientFundsCode)
  }

  /** The sportsbook's answer to a call. */
  function Reply(book: Sportsbook, c: ApiCall): ApiReply
  {
    match c
    case GetLine(l, e, t) => book.getLine(l, e, t)
    case PlaceBet(line, e, t, st) => book.placeBet(line, e, t, st)
  }

  /** `execute(home, away, team, stake)`. The calls it makes are a prefix
      of: the line lookup for the event found, then a placement on that
      line's `lineId`. "League Not Found" always names the queried match,
      and each other result is tied to the reply that produces it. */
  function Execute(book: Sportsbook, home: Value, away: Value, team: Value, stake: Value): (x: Execution)
    ensures x.result.Failed? && x.result.failure.LeagueNotFound? <==> LeagueFalsy(SearchEvent(book.fixtures, home, away))
    ensures x.result.Failed? && x.result.failure.LeagueNotFound? ==> x.result.failure == LeagueNotFound(home, away) && x.calls == []
    ensures |x.calls| <= 2
    ensures |x.calls| > 0 ==>
              var s := SearchEvent(book.fixtures, home, away);
              && s.Hit? && s.leagueId != 0
              && x.calls[0] == GetLine(s.leagueId, s.eventId, team)
    ensures |x.calls| == 2 ==>
              var s := SearchEvent(book.fixtures, home, away);
              var line := book.getLine(s.leagueId, s.eventId, team);
              && line.Answer? && "lineId" in line.payload
              && x.calls[1] == PlaceBet(line.payload["lineId"], s.eventId, team, stake)
    ensures x.result.Placed? ==>
              |x.calls| == 2 && Reply(book, x.calls[1]) == Answer(x.result.bet)
              && !IsInsufficientFunds(x.result.bet)
    ensures x.result == Failed(InsufficientFunds) ==>
              |x.calls| == 2 && Reply(book, x.calls[1]).Answer?
              && IsInsufficientFunds(Reply(book, x.calls[1]).payload)
    ensures x.result.Failed? && x.result.failure.MissingKey? ==>
              && x.result.failure.key == "lineId"
              && |x.calls| == 1 && Reply(book, x.calls[0]).Answer?
              && "lineId" !in Reply(book, x.calls[0]).payload
    ensures x.result.Failed? && x.result.failure.Upstream? ==>
              |x.calls| > 0 && Reply(book, x.calls[|x.calls| - 1]) == ApiError(x.result.failure.message)
  {
    var s := SearchEvent(book.fixtures, home, away);
    if LeagueFalsy(s) then Execution(Failed(LeagueNotFound(home, away)), [])
    else
      var lookup := [GetLine(s.leagueId, s.eventId, team)];
      match book.getLine(s.leagueId, s.eventId, team)
      case ApiError(m) => Execution(Failed(Upstream(m)), lookup)
      case Answer(line) =>
        if "lineId" !in line then Execution(Failed(MissingKey("lineId")), lookup)
        else
          var calls := lookup + [PlaceBet(line["lineId"], s.eventId, team, stake)];
          match book.placeBet(line["lineId"], s.eventId, team, stake)
          case ApiError(m) => Execution(Failed(Upstream(m)), calls)
          case Answer(bet) =>
            if IsInsufficientFunds(bet) then Execution(Failed(InsufficientFunds), calls)
            else Execution(Placed(bet), calls)
  }

  /** Whenever `execute` talks to the sportsbook, it asks for the line of
      the first qualifying event of the catalogue, and of nothing else. */
  lemma ExecuteUsesFirstMatch(book: Sportsbook, home: Value, away: Value, team: Value, stake: Value)
    ensures var x := Execute(book, home, away, team, stake);
            |x.calls| > 0 ==>
              exists i, j :: FirstQualifying(book.fixtures, i, j, home, away)
                          && book.fixtures[i].id != 0
                          && x.calls[0] == GetLine(book.fixtures[i].id, book.fixtures[i].events[j].id, team)
  {
  }

  /** An event found in a league whose id is 0 is reported as "League Not
      Found", and nothing is asked of the sportsbook. */
  lemma LeagueIdZeroIsNotFound(book: Sportsbook, home: Value, away: Value, team: Value, stake: Value, i: int, j: int)
    requires FirstQualifying(book.fixtures, i, j, home, away)
    requires book.fixtures[i].id == 0
    ensures Execute(book, home, away, team, stake) == Execution(Failed(LeagueNotFound(home, away)), [])
  {
    SearchFindsFirst(book.fixtures, home, away, i, j);
  }

  /** Any error code other than "INSUFFICIENT_FUNDS" is handed back as if
      the bet had been placed. */
  lemma OtherErrorCodesPassThrough(book: Sportsbook, home: Value, away: Value, team: Value, stake: Value, bet: map<string, Value>)
    requires Get(bet, "errorCode") != Str(InsufficientFundsCode)
    requires var s := SearchEvent(book.fixtures, home, away);
             && !LeagueFalsy(s)
             && book.getLine(s.leagueId, s.eventId, team).Answer?
             && "lineId" in book.getLine(s.leagueId, s.eventId, team).payload
             && book.placeBet(book.getLine(s.leagueId, s.eventId, team).payload["lineId"], s.eventId, team, stake) == Answer(bet)
    ensures Execute(book, home, away, team, stake).result == Placed(bet)
  {
  }

  /** A placement answered with the "INSUFFICIENT_FUNDS" error code is
      returned as the insufficient-funds failure, not as a placed bet. */
  lemma InsufficientFundsFails(book: Sportsbook, home: Value, away: Value, team: Value, stake: Value, bet: map<string, Value>)
    requires Get(bet, "errorCode") == Str(InsufficientFundsCode)
    requires var s := SearchEvent(book.fixtures, home, away);
             && !LeagueFalsy(s)
             && book.getLine(s.leagueId, s.eventId, team).Answer?
             && "lineId" in book.getLine(s.leagueId, s.eventId, team).payload
             && book.placeBet(book.getLine(s.leagueId, s.eventId, team).payload["lineId"], s.eventId, team, stake) == Answer(bet)
    ensures Execute(book, home, away, team, stake).result == Failed(InsufficientFunds)
  {
  }

  /** A line lookup that raises ends `execute` after that one call, and
      the exception's text is returned. */
  lemma LineLookupErrorReturned(book: Sportsbook, home: Value, away: Value, team: Value, stake: Value, m: string)
    requires var s := SearchEvent(book.fixtures, home, away);
             && !LeagueFalsy(s)
             && book.getLine(s.leagueId, s.eventId, team) == ApiError(m)
    ensures var s := SearchEvent(book.fixtures, home, away);
            Execute(book, home, away, team, stake) ==
              Execution(Failed(Upstream(m)), [GetLine(s.leagueId, s.eventId, team)])
  {
  }

  /** A line without a `lineId` ends `execute` after the lookup with the
      returned `KeyError`; no bet is placed. */
  lemma MissingLineIdReturned(book: Sportsbook, home: Value, away: Value, team: Value, stake: Value)
    requires var s := SearchEvent(book.fixtures, home, away);
             && !LeagueFalsy(s)
             && book.getLine(s.leagueId, s.eventId, team).Answer?
             && "lineId" !in book.getLine(s.leagueId, s.eventId, team).payload
    ensures var s := SearchEvent(book.fixtures, home, away);
            Execute(book, home, away, team, stake) ==
              Execution(Failed(MissingKey("lineId")), [GetLine(s.leagueId, s.eventId, team)])
  {
  }

  /** The duplicate check is switched off in `execute`: the open-bet
      snapshot has no influence on what it does or returns. */
  lemma DuplicateCheckDisabled(book: Sportsbook, bets: seq<OpenBet>, home: Value, away: Value, team: Value, stake: Value)
    ensures Execute(book.(openBets := bets), home, away, team, stake) == Execute(book, home, away, team, stake)
  {
  }
}

=== FILE: handler.dfy ===
/** The Lambda entry point `handler`: required-key validation on the parsed
    request body, then the status-code mapping around the client's
    `execute`. */
module Handler {
  import opened Values
  import Client

  /** The keys read from the body, in the order they are read. */
  const RequiredKeys: seq<string> := ["username", "password", "home", "away", "team", "stake"]

  /** The six parameters, as read from the body. */
  datatype Request = Request(username: Value, password: Value, home: Value, away: Value, team: Value, stake: Value)

  /** How the call `client.execute(...)` ended: with a returned value, or
      with an exception and its text. Building the client happens before,
      outside the guarded region, and is assumed not to raise. */
  datatype Outcome<+R> = Returned(value: R) | Raised(message: string)

  /** `{"message": ...}` or the raw value `execute` returned. */
  datatype Body<+R> = Message(text: string) | Raw(value: R)

  datatype Response<+R> = Response(statusCode: int, body: Body<R>)

  /** The response, and the request the client was built and run with
      (`None` when it never was). */
  datatype Invocation<+R> = Invocation(response: Response<R>, ran: Option<Request>)

  /** Key `k` of `RequiredKeys` is the first one the body lacks. */
  ghost predicate FirstMissingKey(params: map<string, Value>, k: int)
  {
    && 0 <= k < |RequiredKeys|
    && RequiredKeys[k] !in params
    && forall k' :: 0 <= k' < k ==> RequiredKeys[k'] in params
  }

  /** The position of the first missing key at or after `i`. */
  function FirstMissing(params: map<string, Value>, i: nat): (r: Option<nat>)
    requires i <= |RequiredKeys|
    ensures r.Some? ==> i <= r.value < |RequiredKeys| && RequiredKeys[r.value] !in params
    ensures r.Some? ==> forall k :: i <= k < r.value ==> RequiredKeys[k] in params
    ensures r.None? ==> forall k :: i <= k < |RequiredKeys| ==> RequiredKeys[k] in params
    decreases |RequiredKeys| - i
  {
    if i == |RequiredKeys| then None
    else if RequiredKeys[i] !in params then Some(i)
    else FirstMissing(params, i + 1)
  }

  /** Every required key is present. */
  ghost predicate Complete(params: map<string, Value>)
  {
    forall k :: 0 <= k < |RequiredKeys| ==> RequiredKeys[k] in params
  }

  /** Field `k` of a request, in the order the keys are read. */
  function Field(req: Request, k: int): Value
    requires 0 <= k < |RequiredKeys|
  {
    match k
    case 0 => req.username
    case 1 => req.password
    case 2 => req.home
    case 3 => req.away
    case 4 => req.team
    case _ => req.stake
  }

  /** The six parameters read from a complete body: each field holds the
      body's value under the key of the same position. */
  function RequestOf(params: map<string, Value>): (req: Request)
    requires Complete(params)
    ensures forall k :: 0 <= k < |RequiredKeys| ==> Field(req, k) == params[RequiredKeys[k]]
  {
    assert RequiredKeys[0] in params && RequiredKeys[1] in params && RequiredKeys[2] in params;
    assert RequiredKeys[3] in params && RequiredKeys[4] in params && RequiredKeys[5] in params;
    Request(params["username"], params["password"], params["home"],
            params["away"], params["team"], params["stake"])
  }

  function MissingMessage(key: string): string
  {
    "Missing required parameter: " + key
  }

  /** `handler(event, context)` with the body already parsed into
      `params`; `execute` stands for calling the client's `execute` with the
      request's parameters, the only step inside the guarded region. The
      client is taken as already built: an exception while building it
      would escape the handler, and that is not modelled. */
  function Handle<R>(params: map<string, Value>, execute: Request -> Outcome<R>): (h: Invocation<R>)
    ensures h.response.statusCode == 400 <==> exists k :: 0 <= k < |RequiredKeys| && RequiredKeys[k] !in params
    ensures h.response.statusCode == 400 ==>
              && h.ran == None
              && exists k :: FirstMissingKey(params, k) && h.response.body == Message(MissingMessage(RequiredKeys[k]))
    ensures h.response.statusCode != 400 ==> Complete(params) && h.ran == Some(RequestOf(params))
    ensures h.ran.Some? ==>
              match execute(h.ran.value)
              case Raised(m) => h.response == Response(500, Message(m))
              case Returned(v) => h.response == Response(200, Raw(v))
  {
    match FirstMissing(params, 0)
    case Some(k) =>
      assert FirstMissingKey(params, k);
      Invocation(Response(400, Message(MissingMessage(RequiredKeys[k]))), None)
    case None =>
      var req := RequestOf(params);
      match execute(req)
      case Raised(m) => Invocation(Response(500, Message(m)), Some(req))
      case Returned(v) => Invocation(Response(200, Raw(v)), Some(req))
  }

  /** A concrete instance: a body lacking only `stake` is answered 400
      with "Missing required parameter: stake", and nothing is run. */
  lemma MissingStakeExample<R>(params: map<string, Value>, execute: Request -> Outcome<R>)
    requires forall k :: 0 <= k < 5 ==> RequiredKeys[k] in params
    requires "stake" !in params
    ensures Handle(params, execute).response == Response(400, Message("Missing required parameter: stake"))
    ensures Handle(params, execute).ran == None
  {
    var h := Handle(params, execute);
    var k :| FirstMissingKey(params, k) && h.response.body == Message(MissingMessage(RequiredKeys[k]));
    assert k == 5;
  }

  /** Only the six required keys are read: bodies that agree on them get
      the same answer, whatever else they carry. */
  lemma ExtraKeysIgnored<R>(params: map<string, Value>, params': map<string, Value>, execute: Request -> Outcome<R>)
    requires forall k :: 0 <= k < |RequiredKeys| ==>
               (RequiredKeys[k] in params <==> RequiredKeys[k] in params')
    requires forall k :: 0 <= k < |RequiredKeys| && RequiredKeys[k] in params ==>
               params[RequiredKeys[k]] == params'[RequiredKeys[k]]
    ensures Handle(params, execute) == Handle(params', execute)
  {
    var h, h' := Handle(params, execute), Handle(params', execute);
    if h.response.statusCode == 400 {
      var k :| FirstMissingKey(params, k) && h.response.body == Message(MissingMessage(RequiredKeys[k]));
      var k' :| FirstMissingKey(params', k') && h'.response.body == Message(MissingMessage(RequiredKeys[k']));
      assert FirstMissingKey(params', k);
      assert FirstMissingKey(params, k');
      assert k == k';
    }
  }

  /** The handler wired to the client model: `connect` stands for
      logging in and loading the fixture catalogue with the request's
      credentials. The client's `execute` catches every exception, so the
      call always returns. */
  function RunClient(connect: (Value, Value) -> Client.Sportsbook): (run: Request -> Outcome<Client.ExecResult>)
    ensures forall req :: run(req).Returned?
  {
    (req: Request) =>
      Returned(Client.Execute(connect(req.username, req.password), req.home, req.away, req.team, req.stake).result)
  }

  /** `execute` returns its failures instead of raising them, so the
      handler never answers 500 for them: a complete request always gets
      200 with `execute`'s value as the body, "League Not Found" and
      insufficient funds included. */
  lemma DomainFailuresAre200(params: map<string, Value>, connect: (Value, Value) -> Client.Sportsbook)
    ensures var h := Handle(params, RunClient(connect));
            && h.response.statusCode != 500
            && (h.response.statusCode == 200 <==> Complete(params))
            && (h.response.statusCode == 200 ==>
                  var req := RequestOf(params);
                  h.response.body == Raw(Client.Execute(connect(req.username, req.password),
                                                        req.home, req.away, req.team, req.stake).result))
  {
  }

  /** In particular, a request naming a match the catalogue does not hold
      is answered 200 with the "League Not Found" failure as its body. */
  lemma LeagueNotFoundIs200(params: map<string, Value>, connect: (Value, Value) -> Client.Sportsbook)
    requires Complete(params)
    requires var req := RequestOf(params);
             forall i, j :: !Client.Qualifies(connect(req.username, req.password).fixtures, i, j, req.home, req.away)
    ensures var req := RequestOf(params);
            Handle(params, RunClient(connect)).response ==
              Response(200, Raw(Client.Failed(Client.LeagueNotFound(req.home, req.away))))
  {
    var req := RequestOf(params);
    var book := connect(req.username, req.password);
    assert Client.SearchEvent(book.fixtures, req.home, req.away).Miss?;
    assert RunClient(connect)(req) == Returned(Client.Execute(book, req.home, req.away, req.team, req.stake).result);
  }
}

=== FILE: names.dfy ===
/** `PinnacleClient.is_same_name`: two player names are the same when their
    lower-cased, hyphen-free, whitespace-split tokens agree after sorting. */
module Names {
  import opened Values
  import opened Text
  import opened Sorting

  /** `name.lower().replace('-', ' ')`. */
  function Normalize(s: string): string
  {
    ReplaceHyphens(Lower(s))
  }

  /** A string already in normal form: no ASCII capital, no hyphen. */
  ghost predicate IsNormal(s: string)
  {
    forall i :: 0 <= i < |s| ==> !IsUpper(s[i]) && s[i] != '-'
  }

  /** The token list the matcher sorts and compares. */
  function Tokens(s: string): seq<string>
  {
    Split(Normalize(s))
  }

  /** `is_same_name(name1, name2)`. A value that is not a string has no
      `lower()`; the exception is caught and the answer is "different". */
  function IsSameName(a: Value, b: Value): (r: bool)
    ensures r ==> a.Str? && b.Str?
  {
    if a.Str? && b.Str? then Sort(Tokens(a.s)) == Sort(Tokens(b.s)) else false
  }

  /** Sort-then-compare is exactly equality of the token multisets:
      repeated tokens count, word order does not. */
  lemma SameNameIffSameTokens(a: Value, b: Value)
    ensures IsSameName(a, b) <==>
              a.Str? && b.Str? && multiset(Tokens(a.s)) == multiset(Tokens(b.s))
  {
    if a.Str? && b.Str? {
      SortEqIffSameMultiset(Tokens(a.s), Tokens(b.s));
    }
  }

  /** On strings the matcher is an equivalence relation; on anything else
      (Python's `None`, a number) it never holds, not even against itself. */
  lemma SameNameEquivalence(x: string, y: string, z: string, v: Value)
    ensures IsSameName(Str(x), Str(x))
    ensures IsSameName(Str(x), Str(y)) == IsSameName(Str(y), Str(x))
    ensures IsSameName(Str(x), Str(y)) && IsSameName(Str(y), Str(z)) ==> IsSameName(Str(x), Str(z))
    ensures !v.Str? ==> !IsSameName(v, v) && !IsSameName(v, Str(x)) && !IsSameName(Str(x), v)
  {
  }

  /** Folding one character the way `Normalize` does. */
  function Fold(c: char): char
  {
    var l := LowerChar(c);
    if l == '-' then ' ' else l
  }

  /** Case does not matter and a hyphen is as good as a space: names that
      agree position by position after folding always match. */
  lemma CaseAndHyphenInsensitive(a: string, b: string)
    requires |a| == |b|
    requires forall i :: 0 <= i < |a| ==> Fold(a[i]) == Fold(b[i])
    ensures IsSameName(Str(a), Str(b))
  {
    assert Normalize(a) == Normalize(b);
  }

  lemma NormalizeAtSpace(a: string, b: string)
    ensures Normalize(a + " " + b) == Normalize(a) + [' '] + Normalize(b)
  {
  }

  /** Word order does not matter: `a b` matches `b a`. */
  lemma WordOrderIrrelevant(a: string, b: string)
    ensures IsSameName(Str(a + " " + b), Str(b + " " + a))
  {
    NormalizeAtSpace(a, b);
    NormalizeAtSpace(b, a);
    SplitAtSpace(Normalize(a), ' ', Normalize(b));
    SplitAtSpace(Normalize(b), ' ', Normalize(a));
    SameNameIffSameTokens(Str(a + " " + b), Str(b + " " + a));
  }

  lemma {:induction false} JoinNormal(ws: seq<string>)
    requires forall k :: 0 <= k < |ws| ==> IsNormal(ws[k])
    ensures IsNormal(Join(ws))
    decreases |ws|
  {
    if |ws| > 1 {
      JoinNormal(ws[1..]);
    }
  }

  /** The tokens of a name whose normal form is the words `ws` joined by
      single spaces are exactly `ws`. */
  lemma TokensOfJoin(s: string, ws: seq<string>)
    requires forall k :: 0 <= k < |ws| ==> IsWord(ws[k])
    requires Normalize(s) == Join(ws)
    ensures Tokens(s) == ws
  {
    SplitJoin(ws);
  }

  /** For names written as already-normal words separated by single
      spaces, matching is exactly "the same words, each the same number of
      times", in any order. */
  lemma SameWordsIff(ws: seq<string>, vs: seq<string>)
    requires forall k :: 0 <= k < |ws| ==> IsWord(ws[k]) && IsNormal(ws[k])
    requires forall k :: 0 <= k < |vs| ==> IsWord(vs[k]) && IsNormal(vs[k])
    ensures IsSameName(Str(Join(ws)), Str(Join(vs))) <==> multiset(ws) == multiset(vs)
  {
    JoinNormal(ws);
    JoinNormal(vs);
    assert Normalize(Join(ws)) == Join(ws);
    assert Normalize(Join(vs)) == Join(vs);
    TokensOfJoin(Join(ws), ws);
    TokensOfJoin(Join(vs), vs);
    SameNameIffSameTokens(Str(Join(ws)), Str(Join(vs)));
  }

  /** The sample pair the client's script uses: a hyphenated, reversed
      spelling matches the capitalised full name. */
  lemma DanielTaroExample()
    ensures IsSameName(Str("daniel-taro"), Str("Taro Daniel"))
  {
    DanielTaroTokens();
    TaroDanielTokens();
    assert multiset(["daniel", "taro"]) == multiset(["taro", "daniel"]);
    SameNameIffSameTokens(Str("daniel-taro"), Str("Taro Daniel"));
  }

  lemma HongSeongChanExample()
    ensures IsSameName(Str("hong-seong-chan"), Str("hong seong chan"))
  {
    CaseAndHyphenInsensitive("hong-seong-chan", "hong seong chan");
  }

  /** Different words do not match. */
  lemma DifferentWordsExample()
    ensures !IsSameName(Str("Foo Bar"), Str("Foo Baz"))
  {
    FooBarTokens();
    FooBazTokens();
    assert "bar" !in multiset(["foo", "baz"]);
    SameNameIffSameTokens(Str("Foo Bar"), Str("Foo Baz"));
  }

  /** The same words with different repeat counts do not match: the token
      lists are compared, not the token sets. */
  lemma RepeatCountExample()
    ensures !IsSameName(Str("lee lee kim"), Str("lee kim kim"))
  {
    LeeLeeKimTokens();
    LeeKimKimTokens();
    assert multiset(["lee", "lee", "kim"])["lee"] == 2;
    assert multiset(["lee", "kim", "kim"])["lee"] == 1;
    SameNameIffSameTokens(Str("lee lee kim"), Str("lee kim kim"));
  }

  // The token lists of the literal names above. Each literal gets a lemma
  // of its own, because evaluating two of them in one proof costs more
  // than the solver is given.

  lemma DanielTaroTokens()
    ensures Tokens("daniel-taro") == ["daniel", "taro"]
  {
    assert Normalize("daniel-taro") == "daniel taro";
    assert Join(["daniel", "taro"]) == "daniel taro";
    TokensOfJoin("daniel-taro", ["daniel", "taro"]);
  }

  lemma TaroDanielTokens()
    ensures Tokens("Taro Daniel") == ["taro", "daniel"]
  {
    assert Normalize("Taro Daniel") == "taro daniel";
    assert Join(["taro", "daniel"]) == "taro daniel";
    TokensOfJoin("Taro Daniel", ["taro", "daniel"]);
  }

  lemma FooBarTokens()
    ensures Tokens("Foo Bar") == ["foo", "bar"]
  {
    assert Normalize("Foo Bar") == "foo bar";
    assert Join(["foo", "bar"]) == "foo bar";
    TokensOfJoin("Foo Bar", ["foo", "bar"]);
  }

  lemma FooBazTokens()
    ensures Tokens("Foo Baz") == ["foo", "baz"]
  {
    assert Normalize("Foo Baz") == "foo baz";
    assert Join(["foo", "baz"]) == "foo baz";
    TokensOfJoin("Foo Baz", ["foo", "baz"]);
  }

  lemma LeeLeeKimTokens()
    ensures Tokens("lee lee kim") == ["lee", "lee", "kim"]
  {
    assert Normalize("lee lee kim") == "lee lee kim";
    assert Join(["lee", "lee", "kim"]) == "lee lee kim";
    TokensOfJoin("lee lee kim", ["lee", "lee", "kim"]);
  }

  lemma LeeKimKimTokens()
    ensures Tokens("lee kim kim") == ["lee", "kim", "kim"]
  {
    assert Normalize("lee kim kim") == "lee kim kim";
    assert Join(["lee", "kim", "kim"]) == "lee kim kim";
    TokensOfJoin("lee kim kim", ["lee", "kim", "kim"]);
  }
}

=== FILE: sorting.dfy ===
/** Sorting a list of name tokens, as `list.sort()` does in the name
    matcher. Python's sort is a Timsort, but under a total order every
    sorting algorithm yields the same list; insertion sort is used here and
    `SortedUnique` is the fact that makes the choice immaterial. */
module Sorting {
  import opened StringOrder

  ghost predicate Sorted(s: seq<string>)
  {
    forall i, j :: 0 <= i < j < |s| ==> LessEq(s[i], s[j])
  }

  /** Inserts `x` before the first element it does not follow. */
  function Insert(x: string, s: seq<string>): seq<string>
    decreases |s|
  {
    if |s| == 0 then [x]
    else if LessEq(x, s[0]) then [x] + s
    else [s[0]] + Insert(x, s[1..])
  }

  /** Inserting into a sorted list keeps it sorted and adds exactly `x`. */
  lemma {:induction false} InsertCorrect(x: string, s: seq<string>)
    requires Sorted(s)
    ensures Sorted(Insert(x, s))
    ensures multiset(Insert(x, s)) == multiset(s) + multiset{x}
    decreases |s|, 1
  {
    if |s| == 0 {
    } else if LessEq(x, s[0]) {
      InsertFrontSorted(x, s);
    } else {
      InsertBehind(x, s);
    }
  }

  lemma InsertBehind(x: string, s: seq<string>)
    requires Sorted(s) && |s| > 0 && !LessEq(x, s[0])
    ensures Sorted(Insert(x, s))
    ensures multiset(Insert(x, s)) == multiset(s) + multiset{x}
    decreases |s|, 0
  {
    var rest := Insert(x, s[1..]);
    assert s == [s[0]] + s[1..];
    DropHead(s);
    InsertCorrect(x, s[1..]);
    Total(x, s[0]);
    InsertBehindSorted(s[0], rest, s[1..], x);
    assert Insert(x, s) == [s[0]] + rest;
    assert multiset([s[0]] + rest) == multiset{s[0]} + multiset(rest);
  }

  lemma InsertFrontSorted(x: string, s: seq<string>)
    requires Sorted(s) && |s| > 0 && LessEq(x, s[0])
    ensures Sorted([x] + s)
  {
    forall j | 0 < j < |s| + 1
      ensures LessEq(([x] + s)[0], ([x] + s)[j])
    {
      if j > 1 {
        Transitive(x, s[0], s[j - 1]);
      }
    }
  }

  lemma InsertBehindSorted(h: string, rest: seq<string>, tail: seq<string>, x: string)
    requires Sorted(rest) && Sorted([h] + tail) && LessEq(h, x)
    requires multiset(rest) == multiset(tail) + multiset{x}
    ensures Sorted([h] + rest)
  {
    forall j | 0 <= j < |rest|
      ensures LessEq(h, rest[j])
    {
      assert rest[j] in multiset(rest);
      if rest[j] != x {
        assert rest[j] in multiset(tail);
        var k :| 0 <= k < |tail| && tail[k] == rest[j];
        assert LessEq(([h] + tail)[0], ([h] + tail)[k + 1]);
      }
    }
    forall i, j | 0 <= i < j < |[h] + rest|
      ensures LessEq(([h] + rest)[i], ([h] + rest)[j])
    {
      if i > 0 {
        assert LessEq(rest[i - 1], rest[j - 1]);
      }
    }
  }

  /** The tokens of `s` in ascending order. */
  function Sort(s: seq<string>): seq<string>
    decreases |s|
  {
    if |s| == 0 then [] else Insert(s[0], Sort(s[1..]))
  }

  /** `Sort` yields an ordered permutation of its input. */
  lemma {:induction false} SortCorrect(s: seq<string>)
    ensures Sorted(Sort(s))
    ensures multiset(Sort(s)) == multiset(s)
    decreases |s|
  {
    if |s| > 0 {
      SortCorrect(s[1..]);
      InsertCorrect(s[0], Sort(s[1..]));
      assert s == [s[0]] + s[1..];
    }
  }

  /** Two sorted lists holding the same multiset of strings are equal. */
  lemma {:induction false} SortedUnique(a: seq<string>, b: seq<string>)
    requires Sorted(a) && Sorted(b)
    requires multiset(a) == multiset(b)
    ensures a == b
    decreases |a|
  {
    assert |a| == |multiset(a)| == |multiset(b)| == |b|;
    if |a| > 0 {
      HeadsAgree(a, b);
      SortedUnique(a[1..], b[1..]);
      assert a == [a[0]] + a[1..];
      assert b == [b[0]] + b[1..];
    }
  }

  lemma HeadsAgree(a: seq<string>, b: seq<string>)
    requires Sorted(a) && Sorted(b) && |a| > 0 && |b| > 0
    requires multiset(a) == multiset(b)
    ensures a[0] == b[0]
    ensures Sorted(a[1..]) && Sorted(b[1..])
    ensures multiset(a[1..]) == multiset(b[1..])
  {
    HeadIsLeast(a, b);
    HeadIsLeast(b, a);
    AntiSymmetric(a[0], b[0]);
    DropHead(a);
    DropHead(b);
  }

  /** The head of a sorted list is at most every element of an equal
      multiset. */
  lemma HeadIsLeast(a: seq<string>, b: seq<string>)
    requires Sorted(b) && |a| > 0
    requires multiset(a) == multiset(b)
    ensures LessEq(b[0], a[0])
  {
    assert a[0] in multiset(b);
    var k :| 0 <= k < |b| && b[k] == a[0];
    if k == 0 {
      Reflexive(b[0]);
    }
  }

  lemma DropHead(a: seq<string>)
    requires Sorted(a) && |a| > 0
    ensures Sorted(a[1..])
    ensures multiset(a[1..]) == multiset(a) - multiset{a[0]}
  {
    assert a == [a[0]] + a[1..];
  }

  /** Sorting then comparing decides multiset equality. */
  lemma {:induction false} SortEqIffSameMultiset(a: seq<string>, b: seq<string>)
    ensures Sort(a) == Sort(b) <==> multiset(a) == multiset(b)
  {
    SortCorrect(a);
    SortCorrect(b);
    if multiset(a) == multiset(b) {
      SortedUnique(Sort(a), Sort(b));
    }
  }
}

=== FILE: string_order.dfy ===
/** Python's ordering of `str` values: lexicographic by code point, where a
    proper prefix sorts first. This is the order `list.sort()` uses on the
    name tokens. */
module StringOrder {

  /** `a <= b` on Python strings. */
  predicate LessEq(a: string, b: string)
    decreases |a|
  {
    |a| == 0 || (|b| > 0 && (a[0] < b[0] || (a[0] == b[0] && LessEq(a[1..], b[1..]))))
  }

  lemma {:induction false} Reflexive(a: string)
    ensures LessEq(a, a)
    decreases |a|
  {
    if |a| > 0 {
      Reflexive(a[1..]);
    }
  }

  lemma {:induction false} AntiSymmetric(a: string, b: string)
    requires LessEq(a, b) && LessEq(b, a)
    ensures a == b
    decreases |a|
  {
    if |a| > 0 {
      assert |b| > 0 && a[0] == b[0];
      AntiSymmetric(a[1..], b[1..]);
      assert a == [a[0]] + a[1..];
      assert b == [b[0]] + b[1..];
    }
  }

  lemma {:induction false} Transitive(a: string, b: string, c: string)
    requires LessEq(a, b) && LessEq(b, c)
    ensures LessEq(a, c)
    decreases |a|
  {
    if |a| > 0 && a[0] == b[0] && b[0] == c[0] {
      Transitive(a[1..], b[1..], c[1..]);
    }
  }

  lemma {:induction false} Total(a: string, b: string)
    ensures LessEq(a, b) || LessEq(b, a)
    decreases |a|
  {
    if |a| > 0 && |b| > 0 && a[0] == b[0] {
      Total(a[1..], b[1..]);
    }
  }
}

=== FILE: text.dfy ===
/** The string operations the name matcher and the event filter are built
    from: Python's `str.lower()`, `str.replace('-', ' ')`, `str.split()`
    with no separator, and the substring test `needle in hay`. */
module Text {

  /** The characters Python's `str.isspace()` accepts, which is the set
      `str.split()` with no argument splits on. */
  predicate IsSpace(c: char)
  {
    || c == ' ' || c == '\t' || c == '\n' || c == '\r'
    || c == '\U{000B}' || c == '\U{000C}'
    || ('\U{001C}' <= c <= '\U{001F}')
    || c == '\U{0085}' || c == '\U{00A0}' || c == '\U{1680}'
    || ('\U{2000}' <= c <= '\U{200A}')
    || c == '\U{2028}' || c == '\U{2029}' || c == '\U{202F}'
    || c == '\U{205F}' || c == '\U{3000}'
  }

  predicate IsUpper(c: char)
  {
    'A' <= c <= 'Z'
  }

  /** `c.lower()` restricted to the ASCII letters. */
  function LowerChar(c: char): (r: char)
    ensures !IsUpper(r)
    ensures !IsUpper(c) ==> r == c
  {
    if IsUpper(c) then (c as int + 32) as char else c
  }

  /** `s.lower()`: every ASCII capital becomes its small letter, and
      nothing else changes. */
  function Lower(s: string): string
  {
    seq(|s|, i requires 0 <= i < |s| => LowerChar(s[i]))
  }

  /** `s.replace('-', ' ')`: no hyphen survives, and everything else stays
      where it was. */
  function ReplaceHyphens(s: string): string
  {
    seq(|s|, i requires 0 <= i < |s| => if s[i] == '-' then ' ' else s[i])
  }

  /** A token `split()` can produce: non-empty and free of whitespace. */
  ghost predicate IsWord(w: string)
  {
    |w| > 0 && forall i :: 0 <= i < |w| ==> !IsSpace(w[i])
  }

  /** Length of the longest whitespace-free prefix of `s`. */
  function WordLen(s: string): (k: nat)
    ensures k <= |s|
    ensures forall i :: 0 <= i < k ==> !IsSpace(s[i])
    ensures k < |s| ==> IsSpace(s[k])
  {
    if |s| == 0 || IsSpace(s[0]) then 0 else 1 + WordLen(s[1..])
  }

  /** `s.split()`: the maximal runs of non-whitespace characters, in
      order; leading, trailing and repeated whitespace produce nothing. */
  function Split(s: string): seq<string>
    decreases |s|
  {
    if |s| == 0 then []
    else if IsSpace(s[0]) then Split(s[1..])
    else
      var k := WordLen(s);
      [s[..k]] + Split(s[k..])
  }

  /** Every token of `split()` is non-empty and free of whitespace. */
  lemma {:induction false} SplitYieldsWords(s: string)
    ensures forall k :: 0 <= k < |Split(s)| ==> IsWord(Split(s)[k])
    decreases |s|
  {
    if |s| > 0 {
      if IsSpace(s[0]) {
        SplitYieldsWords(s[1..]);
      } else {
        SplitYieldsWords(s[WordLen(s)..]);
      }
    }
  }

  /** A single word splits into itself. */
  lemma SplitWord(w: string)
    requires IsWord(w)
    ensures Split(w) == [w]
  {
    WordLenOfWord(w);
    assert !IsSpace(w[0]);
    assert w[..|w|] == w;
    assert w[|w|..] == [];
  }

  lemma {:induction false} WordLenOfWord(w: string)
    requires forall i :: 0 <= i < |w| ==> !IsSpace(w[i])
    ensures WordLen(w) == |w|
    decreases |w|
  {
    if |w| > 0 {
      WordLenOfWord(w[1..]);
    }
  }

  /** A whitespace character separates: splitting `x + c + y` splits `x`
      and `y` independently. */
  lemma {:induction false} SplitAtSpace(x: string, c: char, y: string)
    requires IsSpace(c)
    ensures Split(x + [c] + y) == Split(x) + Split(y)
    decreases |x|
  {
    var s := x + [c] + y;
    if |x| == 0 {
      assert s[1..] == y;
    } else if IsSpace(x[0]) {
      assert s[1..] == x[1..] + [c] + y;
      SplitAtSpace(x[1..], c, y);
    } else {
      var k := WordLen(x);
      WordLenPrefix(x, c, y);
      assert s[..k] == x[..k];
      assert s[k..] == x[k..] + [c] + y;
      SplitAtSpace(x[k..], c, y);
    }
  }

  lemma {:induction false} WordLenPrefix(x: string, c: char, y: string)
    requires IsSpace(c)
    ensures WordLen(x + [c] + y) == WordLen(x)
    decreases |x|
  {
    var s := x + [c] + y;
    if |x| > 0 && !IsSpace(x[0]) {
      assert s[1..] == x[1..] + [c] + y;
      WordLenPrefix(x[1..], c, y);
    }
  }

  /** `" ".join(ws)`. */
  function Join(ws: seq<string>): string
    decreases |ws|
  {
    if |ws| == 0 then ""
    else if |ws| == 1 then ws[0]
    else ws[0] + " " + Join(ws[1..])
  }

  /** `split()` undoes `" ".join(...)` on a list of words. */
  lemma {:induction false} SplitJoin(ws: seq<string>)
    requires forall k :: 0 <= k < |ws| ==> IsWord(ws[k])
    ensures Split(Join(ws)) == ws
    decreases |ws|
  {
    if |ws| == 1 {
      SplitWord(ws[0]);
    } else if |ws| > 1 {
      SplitAtSpace(ws[0], ' ', Join(ws[1..]));
      assert ws[0] + " " + Join(ws[1..]) == ws[0] + [' '] + Join(ws[1..]);
      SplitWord(ws[0]);
      SplitJoin(ws[1..]);
      assert ws == [ws[0]] + ws[1..];
    }
  }

  predicate IsPrefix(p: string, s: string)
  {
    |p| <= |s| && s[..|p|] == p
  }

  /** Python's `needle in hay` on strings. */
  predicate Contains(hay: string, needle: string)
    decreases |hay|
  {
    IsPrefix(needle, hay) || (|hay| > 0 && Contains(hay[1..], needle))
  }

  /** `Contains` holds exactly when `needle` occurs at some offset. */
  lemma {:induction false} ContainsAt(hay: string, needle: string)
    ensures Contains(hay, needle) <==> exists i :: 0 <= i <= |hay| && IsPrefix(needle, hay[i..])
    decreases |hay|
  {
    assert hay[0..] == hay;
    if |hay| > 0 {
      ContainsAt(hay[1..], needle);
      if Contains(hay[1..], needle) {
        var i :| 0 <= i <= |hay[1..]| && IsPrefix(needle, hay[1..][i..]);
        assert hay[1..][i..] == hay[i + 1..];
      }
      if exists i :: 0 <= i <= |hay| && IsPrefix(needle, hay[i..]) {
        var i :| 0 <= i <= |hay| && IsPrefix(needle, hay[i..]);
        if i > 0 {
          assert hay[1..][i - 1..] == hay[i..];
        }
      }
    }
  }

  /** An occurrence in either part is an occurrence in the concatenation. */
  lemma ContainsInConcat(x: string, y: string, needle: string)
    requires Contains(x, needle) || Contains(y, needle)
    ensures Contains(x + y, needle)
  {
    ContainsAt(x, needle);
    ContainsAt(y, needle);
    ContainsAt(x + y, needle);
    if Contains(x, needle) {
      var i :| 0 <= i <= |x| && IsPrefix(needle, x[i..]);
      assert (x + y)[i..][..|needle|] == x[i..][..|needle|];
    } else {
      var i :| 0 <= i <= |y| && IsPrefix(needle, y[i..]);
      assert (x + y)[|x| + i..] == y[i..];
    }
  }
}

=== FILE: values.dfy ===
/** Dynamically-typed values as they arrive from a parsed JSON request body
    or from a sportsbook API payload, and Python's notion of truthiness. */
module Values {

  /** An optional value: a found position in a search, or the request a
      handler invocation ran with, when there is one. */
  datatype Option<+T> = None | Some(value: T)

  /** The values the modelled code handles after `json.loads`: strings,
      integers and `null` (`None`). Booleans, floats, lists and objects are
      not modelled. */
  datatype Value = Str(s: string) | Int(i: int) | Null

  /** Python truthiness of a value: `None`, `0` and `""` are falsy. */
  function Truthy(v: Value): (r: bool)
    ensures r <==> v != Null && v != Int(0) && v != Str("")
  {
    match v
    case Str(s) => s != ""
    case Int(i) => i != 0
    case Null => false
  }

  /** Python's `d.get(k)`: the value under `k`, or `None` when absent. */
  function Get(d: map<string, Value>, k: string): Value
  {
    if k in d then d[k] else Null
  }
}
